=== FILE: README.md ===
# check-gitlab-patch-status, modelled in Dafny

`check-gitlab-patch-status` is a Nagios-style monitoring check. It makes two
requests. First it asks a GitLab installation for its version. Then it sends
that version, Base64-encoded, to the public advisory service at
version.gitlab.com. Finally it exits with OK (0), WARNING (1), CRITICAL (2)
or UNKNOWN (3). Before exiting it usually prints one status line. There are
two exceptions. An unrecognised severity tag prints nothing. A version
request that cannot be built crashes the process, which writes nothing to
standard output (see Findings).

This project models the logic of the check as pure functions:

- `strings.dfy` (module `Strings`): joining the recommended versions with
  `", "` (`Join`, plus the left-to-right loop `JoinLeftToRight`). It also
  defines `Split`, the inverse used to show that the versions can be read
  back from the line.
- `report.dfy` (module `Report`): the four return states and their exit
  statuses, and the `Report` datatype. A `Report` is the optional line on
  standard output plus the exit state.
- `decision.dfy` (module `Decision`): the `VersionCheck` advisory answer and
  the decision table `Decide`. It also models how a reader parses a status
  line back into its label (`LabelOf`) and its versions (`ListedVersions`).
- `pipeline.dfy` (module `Pipeline`): the two fetch stages and the run.
  Every failing step ends the run with UNKNOWN. The network, body reading,
  JSON and Base64 are fields of an abstract `Environment`. A run returns the
  report and the list of requests it sent.

The decision checks the critical flag first. Only then does it look at the
severity tag. The tags are the literals `"danger"`, `"warning"` and
`"success"`, the Go constants at check-gitlab-patch-status.go:34-38. A `"warning"` tag prints
an `INFO:` line but exits OK. Any other tag prints nothing and exits OK.

## Model

| member | source | states |
|---|---|---|
| `Report.ReturnState.Code` | check-gitlab-patch-status.go:27-32 | each state's exit status is its position in the declaration order, numbered from zero as `iota` does |
| `Report.StateOf` | check-gitlab-patch-status.go:27-32 | an exit status is read back as a state exactly for 0..3, and the state read back has that status |
| `Report.CodesAreDistinctAndOrdered` | check-gitlab-patch-status.go:27-32 | OK=0 < WARNING=1 < CRITICAL=2 < UNKNOWN=3; different states have different statuses; each status reads back as its own state |
| `Decision.WithVersions` | check-gitlab-patch-status.go:54 | a line with versions opens with its headline and the "Recommended Versions are: " introduction, and the rest of the line is exactly the joined version list; the same construction is used at lines 59 and 62 |
| `Decision.Decide` | check-gitlab-patch-status.go:53-70 | never UNKNOWN (status in {0,1,2}). Critical flag set: CRITICAL with a `CRITICAL:` line, whatever the tag. Otherwise `danger` gives WARNING with a `WARN:` line, `warning` gives OK with an `INFO:` line, `success` gives OK with exactly the up-to-date line, and any other tag gives OK with no line |
| `Decision.CriticalIgnoresSeverity` | check-gitlab-patch-status.go:53-55 | with the critical flag set, changing the tag to any string, unknown ones included, leaves the outcome unchanged, and the state is CRITICAL |
| `Decision.UpToDateIgnoresVersions` | check-gitlab-patch-status.go:64-66 | the `success` outcome does not mention or depend on the recommended versions |
| `Decision.LabelOfDecision` | check-gitlab-patch-status.go:53-67 | the printed line opens with `CRITICAL:`, `WARN:`, `INFO:` or `OK:` according to the branch taken |
| `Decision.LabelMatchesState` | check-gitlab-patch-status.go:53-70 | label and exit state agree both ways: CRITICAL label iff CRITICAL state, WARN iff WARNING, INFO or OK iff OK; no line only with OK |
| `Decision.ReadBack` | check-gitlab-patch-status.go:54 | the versions written after a headline are read back after it, for a non-empty list of versions that do not contain `", "` |
| `Decision.LineListsVersions` | check-gitlab-patch-status.go:53-66 | the CRITICAL, WARN and INFO lines list exactly the recommended versions in the order received; the up-to-date line lists none |
| `Decision.VersionSeparatorUnbordered` | check-gitlab-patch-status.go:54 | two occurrences of `", "` cannot overlap, which is what makes the list splittable |
| `Decision.SampleLines` | check-gitlab-patch-status.go:53-70 | the exact outcomes for sample advisories: two versions in INFO, one in WARN, none in CRITICAL, the up-to-date line, and an unknown tag |
| `Strings.Join` | check-gitlab-patch-status.go:54 | an empty list joins to the empty string; a one-element list joins to that element; a non-empty list's join starts with its first element, so there is no leading separator |
| `Strings.JoinEndsWithLast` | check-gitlab-patch-status.go:54 | a non-empty list's join ends with its last element, so there is no trailing separator |
| `Strings.JoinAppend` | check-gitlab-patch-status.go:54 | appending a version adds exactly one separator and that version at the end, so there is no trailing separator |
| `Strings.JoinLeftToRight` | check-gitlab-patch-status.go:54 | the join built left to right, one separator before every element after the first, equals the recursive `Join` |
| `Strings.JoinEmptyIsAmbiguous` | check-gitlab-patch-status.go:54 | an empty list joins to the empty string, as does a list holding one empty string |
| `Strings.SplitJoin` | check-gitlab-patch-status.go:54 | splitting the joined list gives the list back when it is non-empty, no element contains the separator and the separator cannot overlap itself |
| `Pipeline.Fetch` | check-gitlab-patch-status.go:77-98 | send, read, decode: the stage continues iff all three succeed, and then hands on the re-encoded descriptor; otherwise it ends with UNKNOWN and a line; the requests already sent are kept unchanged |
| `Pipeline.LocalVersion` | check-gitlab-patch-status.go:73-99 | the local stage continues iff building, sending, reading and decoding all succeed; it then hands on the re-encoded descriptor; otherwise it ends with UNKNOWN and a line; it sends the version request unless the request could not be built |
| `Pipeline.LocalVersionAsWritten` | check-gitlab-patch-status.go:73-99 | as written, an unbuildable request ends the process with CRITICAL (status 2) and no line; otherwise it behaves as `LocalVersion` |
| `Pipeline.VersionCriticality` | check-gitlab-patch-status.go:101-125 | the advisory stage sends exactly one request carrying the Base64 of the descriptor. It continues iff sending, reading and decoding succeed, and then yields the decoded answer. The first failing step ends it with UNKNOWN and that step's error text as the line: the send error (lines 103-107), the read error (lines 110-113) or the JSON error (lines 117-121) |
| `Pipeline.RunAsWritten` | check-gitlab-patch-status.go:48-125 | the program as written, chaining the local stage, the advisory stage and `Decide` through the helper `Proceed`. If the version request cannot be built, it ends CRITICAL with no line and no request sent. Otherwise it is the same as the corrected `Run` |
| `Pipeline.Run` | check-gitlab-patch-status.go:48-125 | the corrected program, chaining the stages through the same helper `Proceed`: UNKNOWN iff the local stage or the advisory stage failed, always with a diagnostic line then; at most two requests are sent |
| `Pipeline.LocalFailureSkipsAdvisory` | check-gitlab-patch-status.go:51 | in the corrected run (`Run`), when the local stage fails, every request sent is a version request, so the advisory endpoint is never queried; that such a run is UNKNOWN with a line is part of `Run`'s contract |
| `Pipeline.LocalFailureEndsRun` | check-gitlab-patch-status.go:73-95 | each local failure (building, sending, reading, decoding) ends the run with UNKNOWN and the error text, having sent at most the version request |
| `Pipeline.SuccessfulRunDecides` | check-gitlab-patch-status.go:51-70 | when both stages succeed, the run's report is `Decide` on the answer, it is never UNKNOWN, and exactly the version request and then the advisory request were sent |
| `Pipeline.UnbuildableRequestReportsCritical` | check-gitlab-patch-status.go:74-75 | the written and the corrected runs agree unless the version request cannot be built; then the written one reports CRITICAL with no line, the corrected one UNKNOWN |

## Left out

- HTTP: the requests, the `PRIVATE-TOKEN` header (lines 74-83, 103-110) and URL formatting (lines 14-15) are not modelled. `Request` only names which endpoint is asked and with what. Sending, reading and building a request are `Environment` operations that may fail.
- JSON decoding and re-encoding (lines 89-97, 116-117) are `Environment` operations. The ignored error of `json.Marshal` (line 97) cannot occur for a one-string struct, so `encodeStatus` cannot fail.
- Base64 (line 102) is the library's standard encoding, described in section 4 of RFC 4648. It is the `Environment` operation `base64`.
- Command-line flags (lines 40-46, 49): the host and token are parameters of the run.
- Timeouts: the check sets none. `http.DefaultClient.Do` (line 77) and `http.Get` (line 103) wait for as long as the server keeps the connection open, so an unresponsive server makes the check hang. In the model `Environment.send` always returns a response or an error, so runs that never end are not modelled.
- Printing and `os.Exit`: a run returns a `Report` instead. The newline that `fmt.Println` adds is not part of the modelled line. The panic message that Go writes to standard error is not modelled.
- The HTTP status code is never inspected by the check (an error page that decodes as JSON is used as if it were an answer). The model carries the status code in `Response` but no operation reads it. Response bodies are never closed; this is not modelled.
- `Decision.LineListsVersions` and `Strings.SplitJoin` cover only non-empty version lists whose entries do not contain `", "`. An empty list and a list of one empty string print the same line (`Strings.JoinEmptyIsAmbiguous`), so the empty list cannot be read back.

## Findings

| source | as written | input that shows it | evidently intended | confidence | as-written member | corrected member |
|---|---|---|---|---|---|---|
| check-gitlab-patch-status.go:74-75 | the error from building the version request is discarded. A URL that does not parse gives a nil request, and setting its header panics. Go then exits with status 2, which the monitor reads as CRITICAL, with no status line | `--host "git lab.example.com"` (a space is not allowed in a URL host) | report UNKNOWN with the error text, like every other local failure | medium, not executed | `Pipeline.LocalVersionAsWritten`, `Pipeline.RunAsWritten`, `Pipeline.UnbuildableRequestReportsCritical` | `Pipeline.LocalVersion`, `Pipeline.Run`, `Pipeline.LocalFailureEndsRun`, `Pipeline.LocalFailureSkipsAdvisory` |

=== FILE: decision.dfy ===
/** The severity decision table: from the advisory service's answer to the
    status line and exit state of the check. */
module Decision {
  import opened Report
  import opened Strings

  /** The advisory service's answer: the recommended versions in the order
      received, a severity tag and the critical-vulnerability flag. */
  datatype VersionCheck = VersionCheck(
    recommendedVersions: seq<string>,
    severity: string,
    criticalVulnerability: bool)

  /** The three severity tags the check recognises. */
  const SeveritySuccess: string := "success"
  const SeverityWarning: string := "warning"
  const SeverityDanger: string := "danger"

  /** Recommended versions are listed with this between neighbours. */
  const VersionSeparator: string := ", "

  /** The label that opens each status line. */
  const CriticalTag: string := "CRITICAL:"
  const WarnTag: string := "WARN:"
  const InfoTag: string := "INFO:"
  const OkTag: string := "OK:"

  const CriticalHeadline: string := CriticalTag + " A critical vulnerability has been found in your GitLab installation."
  const WarnHeadline: string := WarnTag + " It is strongly recommended to update your GitLab installation."
  const InfoHeadline: string := InfoTag + " A new version of GitLab is available."
  const VersionsIntro: string := " Recommended Versions are: "
  const UpToDateLine: string := OkTag + " Your GitLab installation is up to date."

  /** A headline followed by the recommended versions. */
  function WithVersions(headline: string, versions: seq<string>): (line: string)
    ensures StartsWith(line, headline + VersionsIntro)
    ensures line[|headline + VersionsIntro|..] == Join(versions, VersionSeparator)
  {
    headline + VersionsIntro + Join(versions, VersionSeparator)
  }

  /** The decision: the critical flag first, whatever the tag says; then
      the tag, where "warning" only informs and an unrecognised tag prints
      nothing and exits OK. The decision never reports UNKNOWN. */
  function Decide(check: VersionCheck): (r: Report)
    ensures r.state != Unknown
    ensures r.state.Code() in {0, 1, 2}
    ensures check.criticalVulnerability ==>
              r.state == Critical && r.line.Some? && StartsWith(r.line.value, CriticalTag)
    ensures !check.criticalVulnerability && check.severity == SeverityDanger ==>
              r.state == Warning && r.line.Some? && StartsWith(r.line.value, WarnTag)
    ensures !check.criticalVulnerability && check.severity == SeverityWarning ==>
              r.state == Ok && r.line.Some? && StartsWith(r.line.value, InfoTag)
    ensures !check.criticalVulnerability && check.severity == SeveritySuccess ==>
              r == Report(Some(UpToDateLine), Ok)
    ensures !check.criticalVulnerability
            && check.severity !in {SeverityDanger, SeverityWarning, SeveritySuccess} ==>
              r == Report(None, Ok)
  {
    if check.criticalVulnerability then
      Report(Some(WithVersions(CriticalHeadline, check.recommendedVersions)), Critical)
    else if check.severity == SeverityDanger then
      Report(Some(WithVersions(WarnHeadline, check.recommendedVersions)), Warning)
    else if check.severity == SeverityWarning then
      Report(Some(WithVersions(InfoHeadline, check.recommendedVersions)), Ok)
    else if check.severity == SeveritySuccess then
      Report(Some(UpToDateLine), Ok)
    else
      Report(None, Ok)
  }

  /** The labels a reader of the status line can tell apart. */
  datatype Label = CriticalLabel | WarnLabel | InfoLabel | OkLabel

  /** The label a status line opens with, if any. */
  function LabelOf(line: string): Option<Label> {
    if StartsWith(line, CriticalTag) then Some(CriticalLabel)
    else if StartsWith(line, WarnTag) then Some(WarnLabel)
    else if StartsWith(line, InfoTag) then Some(InfoLabel)
    else if StartsWith(line, OkTag) then Some(OkLabel)
    else None
  }

  /** The versions a status line lists, read back by cutting at the
      separator; None for a line that lists no versions. */
  function ListedVersions(line: string): Option<seq<string>> {
    match LabelOf(line)
    case Some(CriticalLabel) => VersionsAfter(line, CriticalHeadline)
    case Some(WarnLabel) => VersionsAfter(line, WarnHeadline)
    case Some(InfoLabel) => VersionsAfter(line, InfoHeadline)
    case _ => None
  }

  /** The versions listed after `headline` and the introduction. */
  function VersionsAfter(line: string, headline: string): Option<seq<string>> {
    var head := headline + VersionsIntro;
    if StartsWith(line, head) then Some(Split(line[|head|..], VersionSeparator)) else None
  }

  /** With the critical flag set, the tag has no influence on the outcome. */
  lemma CriticalIgnoresSeverity(check: VersionCheck, otherTag: string)
    requires check.criticalVulnerability
    ensures Decide(check) == Decide(check.(severity := otherTag))
    ensures Decide(check).state == Critical
  {
  }

  /** The up-to-date line does not depend on the recommended versions. */
  lemma UpToDateIgnoresVersions(check: VersionCheck, otherVersions: seq<string>)
    requires !check.criticalVulnerability && check.severity == SeveritySuccess
    ensures Decide(check) == Decide(check.(recommendedVersions := otherVersions))
  {
  }

  /** The label a decided line opens with, by branch of the decision. */
  lemma LabelOfDecision(check: VersionCheck)
    requires Decide(check).line.Some?
    ensures LabelOf(Decide(check).line.value)
         == Some(if check.criticalVulnerability then CriticalLabel
                 else if check.severity == SeverityDanger then WarnLabel
                 else if check.severity == SeverityWarning then InfoLabel
                 else OkLabel)
  {
    var line := Decide(check).line.value;
    var versions := check.recommendedVersions;
    if check.criticalVulnerability {
      OpensWithTag(CriticalTag, CriticalHeadline[|CriticalTag|..], versions);
      LabelOfOpening(line, CriticalTag);
    } else if check.severity == SeverityDanger {
      OpensWithTag(WarnTag, WarnHeadline[|WarnTag|..], versions);
      LabelOfOpening(line, WarnTag);
    } else if check.severity == SeverityWarning {
      OpensWithTag(InfoTag, InfoHeadline[|InfoTag|..], versions);
      LabelOfOpening(line, InfoTag);
    } else {
      PrefixOfConcat(OkTag, UpToDateLine[|OkTag|..]);
      assert UpToDateLine == OkTag + UpToDateLine[|OkTag|..];
      LabelOfOpening(line, OkTag);
    }
  }

  /** A line opening with one of the four tags is labelled by that tag. */
  lemma LabelOfOpening(line: string, tag: string)
    requires tag in {CriticalTag, WarnTag, InfoTag, OkTag}
    requires StartsWith(line, tag)
    ensures LabelOf(line) == Some(if tag == CriticalTag then CriticalLabel
                                  else if tag == WarnTag then WarnLabel
                                  else if tag == InfoTag then InfoLabel
                                  else OkLabel)
  {
    assert line[0] == tag[0];
  }

  /** A line listing versions opens with the tag its headline opens with. */
  lemma OpensWithTag(tag: string, rest: string, versions: seq<string>)
    ensures StartsWith(WithVersions(tag + rest, versions), tag)
  {
    var head := tag + rest + VersionsIntro;
    assert head == tag + (rest + VersionsIntro);
    PrefixOfConcat(tag, rest + VersionsIntro);
    PrefixOfPrefix(WithVersions(tag + rest, versions), head, tag);
  }

  /** The label of the printed line agrees with the exit state: CRITICAL
      exactly for the critical state, WARN exactly for the warning state,
      INFO or OK (or no line at all) exactly for the OK state. */
  lemma LabelMatchesState(check: VersionCheck)
    ensures Decide(check).line.None? ==> Decide(check).state == Ok
    ensures Decide(check).line.Some? ==>
              var opening := LabelOf(Decide(check).line.value);
              && (opening == Some(CriticalLabel) <==> Decide(check).state == Critical)
              && (opening == Some(WarnLabel) <==> Decide(check).state == Warning)
              && (opening in {Some(InfoLabel), Some(OkLabel)} <==> Decide(check).state == Ok)
  {
    if Decide(check).line.Some? {
      LabelOfDecision(check);
    }
  }

  /** The list separator cannot overlap itself. */
  lemma VersionSeparatorUnbordered()
    ensures Unbordered(VersionSeparator)
  {
    assert VersionSeparator[..1] == [','];
    assert VersionSeparator[1..] == [' '];
  }

  /** Every line that lists versions gives back exactly the recommended
      versions, in the order received, when the list is non-empty and no
      version contains the separator; the up-to-date line lists none. */
  lemma LineListsVersions(check: VersionCheck)
    requires |check.recommendedVersions| > 0
    requires forall i :: 0 <= i < |check.recommendedVersions| ==>
               FreeOf(check.recommendedVersions[i], VersionSeparator)
    requires Decide(check).line.Some?
    ensures Decide(check).line.value != UpToDateLine ==>
              ListedVersions(Decide(check).line.value) == Some(check.recommendedVersions)
    ensures Decide(check).line.value == UpToDateLine ==>
              ListedVersions(Decide(check).line.value) == None
  {
    var versions := check.recommendedVersions;
    LabelOfDecision(check);
    if check.criticalVulnerability {
      ReadBack(CriticalHeadline, versions);
    } else if check.severity == SeverityDanger {
      ReadBack(WarnHeadline, versions);
    } else if check.severity == SeverityWarning {
      ReadBack(InfoHeadline, versions);
    }
  }

  /** The versions written after a headline are read back after it. */
  lemma ReadBack(headline: string, versions: seq<string>)
    requires |versions| > 0
    requires forall i :: 0 <= i < |versions| ==> FreeOf(versions[i], VersionSeparator)
    ensures VersionsAfter(WithVersions(headline, versions), headline) == Some(versions)
  {
    var head := headline + VersionsIntro;
    var joined := Join(versions, VersionSeparator);
    assert WithVersions(headline, versions) == head + joined;
    PrefixOfConcat(head, joined);
    assert (head + joined)[|head|..] == joined;
    VersionSeparatorUnbordered();
    SplitJoin(versions, VersionSeparator);
  }

  /** The lines the check prints for sample advisories: versions listed
      in order with ", " between them, nothing after the last one. */
  lemma SampleLines()
    ensures Decide(VersionCheck(["16.1.1", "16.0.3"], "warning", false))
         == Report(Some(InfoHeadline + VersionsIntro + "16.1.1, 16.0.3"), Ok)
    ensures Decide(VersionCheck(["16.1.1"], "danger", false))
         == Report(Some(WarnHeadline + VersionsIntro + "16.1.1"), Warning)
    ensures Decide(VersionCheck([], "success", true))
         == Report(Some(CriticalHeadline + VersionsIntro), Critical)
    ensures Decide(VersionCheck(["16.1.1"], "success", false)) == Report(Some(UpToDateLine), Ok)
    ensures Decide(VersionCheck(["16.1.1"], "unknown-tag", false)) == Report(None, Ok)
  {
    assert Join(["16.1.1", "16.0.3"], VersionSeparator) == "16.1.1" + ", " + "16.0.3" == "16.1.1, 16.0.3";
    var critical := CriticalHeadline + VersionsIntro;
    assert critical + Join([], VersionSeparator) == critical + "" == critical;
  }
}

=== FILE: pipeline.dfy ===
/** The two fetch stages and the run that chains them with the decision.
    Network, body reading, JSON and Base64 are operations of an abstract
    `Environment`; every one that can fail returns an `Attempt`. */
module Pipeline {
  import opened Report
  import opened Decision

  newtype byte = x: int | 0 <= x < 256

  type Bytes = seq<byte>

  /** An environment operation that either yields a value or fails with
      the error's text. */
  datatype Attempt<+T> = Got(value: T) | Failed(text: string)

  /** The version descriptor of the installation (its JSON `version`). */
  datatype GitLabStatus = GitLabStatus(version: string)

  /** The two requests the check issues: the installation's version
      endpoint, authenticated by a private token, and the public advisory
      endpoint, given the encoded descriptor. */
  datatype Request =
    | VersionRequest(host: string, token: string)
    | AdvisoryRequest(gitlabInfo: string)

  /** A response whose body still has to be read. The status code is
      carried but never inspected by the check. */
  datatype Response = Response(statusCode: int, pending: Bytes)

  /** Everything the check consults outside its own logic. */
  datatype Environment = Environment(
    newRequestError: Request -> Option<string>,   // building the request from its URL
    send: Request -> Attempt<Response>,           // issuing the HTTPS GET
    readBody: Response -> Attempt<Bytes>,         // reading the whole body
    decodeStatus: Bytes -> Attempt<GitLabStatus>, // JSON into the version descriptor
    encodeStatus: GitLabStatus -> Bytes,          // the descriptor back to canonical JSON
    decodeCheck: Bytes -> Attempt<VersionCheck>,  // JSON into the advisory answer
    base64: Bytes -> string)                      // standard padded Base64

  /** How a stage ends: handing a value to the next step, or ending the
      process with a report. Either way, the requests it sent. */
  datatype Stage<+T> =
    | Continue(value: T, sent: seq<Request>)
    | Exit(report: Report, sent: seq<Request>)

  /** The local stage as written: a request that cannot be built is used
      anyway, and dereferencing it panics, which ends the process with
      status 2 (read as CRITICAL) and nothing on standard output. */
  function LocalVersionAsWritten(env: Environment, host: string, token: string): (r: Stage<Bytes>)
    ensures env.newRequestError(VersionRequest(host, token)).Some? ==>
              r == Exit(Report(None, Critical), [])
    ensures env.newRequestError(VersionRequest(host, token)).None? ==>
              r == LocalVersion(env, host, token)
  {
    var request := VersionRequest(host, token);
    if env.newRequestError(request).Some? then Exit(Report(None, Critical), [])
    else Fetch(env, request, [request])
  }

  /** The local stage: build and send the version request, read the body,
      decode the descriptor, re-encode it. The first failing step ends the
      run with UNKNOWN; a request that cannot be built is one such step. */
  function LocalVersion(env: Environment, host: string, token: string): (r: Stage<Bytes>)
    ensures r.Exit? ==> r.report.state == Unknown && r.report.line.Some?
    ensures r.Continue? <==>
              var request := VersionRequest(host, token);
              && env.newRequestError(request).None?
              && env.send(request).Got?
              && env.readBody(env.send(request).value).Got?
              && env.decodeStatus(env.readBody(env.send(request).value).value).Got?
    ensures r.Continue? ==>
              var response := env.send(VersionRequest(host, token)).value;
              var status := env.decodeStatus(env.readBody(response).value).value;
              r.value == env.encodeStatus(status)
    ensures r.sent == if env.newRequestError(VersionRequest(host, token)).Some? then []
                      else [VersionRequest(host, token)]
  {
    var request := VersionRequest(host, token);
    match env.newRequestError(request)
    case Some(e) => Exit(Report(Some(e), Unknown), [])
    case None => Fetch(env, request, [request])
  }

  /** Send, read, decode the descriptor, re-encode: the shared tail of
      both versions of the local stage. */
  function Fetch(env: Environment, request: Request, sent: seq<Request>): (r: Stage<Bytes>)
    ensures r.sent == sent
    ensures r.Exit? ==> r.report.state == Unknown && r.report.line.Some?
    ensures r.Continue? <==>
              && env.send(request).Got?
              && env.readBody(env.send(request).value).Got?
              && env.decodeStatus(env.readBody(env.send(request).value).value).Got?
    ensures r.Continue? ==>
              var status := env.decodeStatus(env.readBody(env.send(request).value).value).value;
              r.value == env.encodeStatus(status)
  {
    match env.send(request)
    case Failed(e) => Exit(Report(Some(e), Unknown), sent)
    case Got(response) =>
      match env.readBody(response)
      case Failed(e) => Exit(Report(Some(e), Unknown), sent)
      case Got(body) =>
        match env.decodeStatus(body)
        case Failed(e) => Exit(Report(Some(e), Unknown), sent)
        case Got(status) => Continue(env.encodeStatus(status), sent)
  }

  /** The advisory stage: encode the descriptor in Base64, send it to the
      advisory endpoint, read the body, decode the answer. The first
      failing step ends the run with UNKNOWN. */
  function VersionCriticality(env: Environment, payload: Bytes): (r: Stage<VersionCheck>)
    ensures r.Exit? ==> r.report.state == Unknown && r.report.line.Some?
    ensures r.Continue? <==>
              var request := AdvisoryRequest(env.base64(payload));
              && env.send(request).Got?
              && env.readBody(env.send(request).value).Got?
              && env.decodeCheck(env.readBody(env.send(request).value).value).Got?
    ensures r.Continue? ==>
              var response := env.send(AdvisoryRequest(env.base64(payload))).value;
              r.value == env.decodeCheck(env.readBody(response).value).value
    ensures var request := AdvisoryRequest(env.base64(payload));
            env.send(request).Failed? ==>
              r.report == Report(Some(env.send(request).text), Unknown)
    ensures var request := AdvisoryRequest(env.base64(payload));
            env.send(request).Got? && env.readBody(env.send(request).value).Failed? ==>
              r.report == Report(Some(env.readBody(env.send(request).value).text), Unknown)
    ensures var request := AdvisoryRequest(env.base64(payload));
            && env.send(request).Got?
            && env.readBody(env.send(request).value).Got?
            && env.decodeCheck(env.readBody(env.send(request).value).value).Failed? ==>
              r.report == Report(Some(env.decodeCheck(env.readBody(env.send(request).value).value).text), Unknown)
    ensures r.sent == [AdvisoryRequest(env.base64(payload))]
  {
    var request := AdvisoryRequest(env.base64(payload));
    match env.send(request)
    case Failed(e) => Exit(Report(Some(e), Unknown), [request])
    case Got(response) =>
      match env.readBody(response)
      case Failed(e) => Exit(Report(Some(e), Unknown), [request])
      case Got(body) =>
        match env.decodeCheck(body)
        case Failed(e) => Exit(Report(Some(e), Unknown), [request])
        case Got(check) => Continue(check, [request])
  }

  /** The result of one run: the report and every request sent, in order. */
  datatype Outcome = Outcome(report: Report, sent: seq<Request>)

  /** Everything after the local stage: stop if it ended the run,
      otherwise query the advisory endpoint and decide. */
  function Proceed(env: Environment, local: Stage<Bytes>): Outcome {
    match local
    case Exit(report, sent) => Outcome(report, sent)
    case Continue(payload, sent) =>
      match VersionCriticality(env, payload)
      case Exit(report, more) => Outcome(report, sent + more)
      case Continue(check, more) => Outcome(Decide(check), sent + more)
  }

  /** The check as written. */
  function RunAsWritten(env: Environment, host: string, token: string): (r: Outcome)
    ensures env.newRequestError(VersionRequest(host, token)).Some? ==>
              r == Outcome(Report(None, Critical), [])
    ensures env.newRequestError(VersionRequest(host, token)).None? ==>
              r == Run(env, host, token)
  {
    Proceed(env, LocalVersionAsWritten(env, host, token))
  }

  /** The check with an unbuildable request reported like every other
      failure of the local stage. */
  function Run(env: Environment, host: string, token: string): (r: Outcome)
    ensures var local := LocalVersion(env, host, token);
            r.report.state == Unknown <==>
              local.Exit? || VersionCriticality(env, local.value).Exit?
    ensures r.report.state == Unknown ==> r.report.line.Some?
    ensures |r.sent| <= 2
  {
    Proceed(env, LocalVersion(env, host, token))
  }

  /** A failed local stage means the advisory endpoint is never queried:
      every request the run sent is a version request. */
  lemma LocalFailureSkipsAdvisory(env: Environment, host: string, token: string)
    ensures var r := Run(env, host, token);
            LocalVersion(env, host, token).Exit? ==>
              forall i :: 0 <= i < |r.sent| ==> r.sent[i].VersionRequest?
  {
  }

  /** Any of the three failures of the local stage, including building the
      request, ends the run with its error text and UNKNOWN, before the
      advisory endpoint is queried. */
  lemma LocalFailureEndsRun(env: Environment, host: string, token: string)
    ensures var request := VersionRequest(host, token);
            var r := Run(env, host, token);
            && (env.newRequestError(request).Some? ==>
                  r == Outcome(Report(Some(env.newRequestError(request).value), Unknown), []))
            && (env.newRequestError(request).None? && env.send(request).Failed? ==>
                  r == Outcome(Report(Some(env.send(request).text), Unknown), [request]))
            && (env.newRequestError(request).None? && env.send(request).Got?
                && env.readBody(env.send(request).value).Failed? ==>
                  r == Outcome(Report(Some(env.readBody(env.send(request).value).text), Unknown), [request]))
            && (env.newRequestError(request).None? && env.send(request).Got?
                && env.readBody(env.send(request).value).Got?
                && env.decodeStatus(env.readBody(env.send(request).value).value).Failed? ==>
                  r == Outcome(Report(Some(env.decodeStatus(env.readBody(env.send(request).value).value).text),
                                      Unknown), [request]))
  {
  }

  /** When both stages succeed the run is the decision on the advisory
      answer, after exactly the two requests, the second carrying the
      Base64 of the re-encoded descriptor; such a run is never UNKNOWN. */
  lemma SuccessfulRunDecides(env: Environment, host: string, token: string)
    requires LocalVersion(env, host, token).Continue?
    requires VersionCriticality(env, LocalVersion(env, host, token).value).Continue?
    ensures var payload := LocalVersion(env, host, token).value;
            var r := Run(env, host, token);
            && r.report == Decide(VersionCriticality(env, payload).value)
            && r.sent == [VersionRequest(host, token), AdvisoryRequest(env.base64(payload))]
            && r.report.state != Unknown
  {
  }

  /** The two runs differ only when the version request cannot be built:
      the written check then reports CRITICAL with no line, where every
      other local failure reports UNKNOWN. */
  lemma UnbuildableRequestReportsCritical(env: Environment, host: string, token: string)
    ensures env.newRequestError(VersionRequest(host, token)).None? ==>
              RunAsWritten(env, host, token) == Run(env, host, token)
    ensures env.newRequestError(VersionRequest(host, token)).Some? ==>
              && RunAsWritten(env, host, token).report == Report(None, Critical)
              && Run(env, host, token).report.state == Unknown
  {
  }
}

=== FILE: report.dfy ===
/** What one run of the check hands to the monitoring system: at most one
    line on standard output and a process exit status. */
module Report {

  datatype Option<+T> = None | Some(value: T)

  /** The four return states of a Nagios-style check, in declaration order. */
  datatype ReturnState = Ok | Warning | Critical | Unknown {

    /** The exit status of this state: its position in `Declared`, as the
        Go constants number them from zero. */
    function Code(): (c: int)
      ensures 0 <= c < |Declared| && Declared[c] == this
    {
      match this
      case Ok => 0
      case Warning => 1
      case Critical => 2
      case Unknown => 3
    }
  }

  /** The states in the order the source declares them. */
  const Declared: seq<ReturnState> := [Ok, Warning, Critical, Unknown]

  /** How a monitoring system reads an exit status back into a state. */
  function StateOf(code: int): (s: Option<ReturnState>)
    ensures s.Some? <==> 0 <= code < 4
    ensures s.Some? ==> s.value.Code() == code
  {
    if 0 <= code < |Declared| then Some(Declared[code]) else None
  }

  /** Exit statuses are 0, 1, 2, 3 for OK, WARNING, CRITICAL, UNKNOWN, each
      state has its own status and the status is read back as that state. */
  lemma CodesAreDistinctAndOrdered(s: ReturnState, t: ReturnState)
    ensures Ok.Code() == 0 && Warning.Code() == 1 && Critical.Code() == 2 && Unknown.Code() == 3
    ensures s.Code() == t.Code() <==> s == t
    ensures StateOf(s.Code()) == Some(s)
  {
  }

  /** The result of a run: the line printed, if any, and the exit state. */
  datatype Report = Report(line: Option<string>, state: ReturnState)
}

=== FILE: strings.dfy ===
/** Joining a list of strings with a separator, the way the check builds
    the "Recommended Versions are: ..." part of its status line, and the
    splitting that undoes it. */
module Strings {

  /** True iff `prefix` is an initial segment of `s`. */
  predicate StartsWith(s: string, prefix: string) {
    |prefix| <= |s| && s[..|prefix|] == prefix
  }

  /** True iff `suffix` is a final segment of `s`. */
  predicate EndsWith(s: string, suffix: string) {
    |suffix| <= |s| && s[|s| - |suffix|..] == suffix
  }

  /** A string starts with anything it was built from by appending. */
  lemma PrefixOfConcat(prefix: string, rest: string)
    ensures StartsWith(prefix + rest, prefix)
  {
  }

  /** A prefix of a prefix is a prefix. */
  lemma PrefixOfPrefix(s: string, head: string, tag: string)
    requires StartsWith(s, head) && StartsWith(head, tag)
    ensures StartsWith(s, tag)
  {
    assert s[..|tag|] == head[..|tag|];
  }

  /** True iff `sep` occurs nowhere inside `s`. */
  predicate FreeOf(s: string, sep: string) {
    forall i :: 0 <= i < |s| ==> !StartsWith(s[i..], sep)
  }

  /** True iff no proper, non-empty prefix of `sep` is also a suffix of it,
      so two occurrences of `sep` can never overlap. */
  predicate Unbordered(sep: string) {
    forall k :: 0 < k < |sep| ==> sep[..k] != sep[|sep| - k..]
  }

  /** The parts in order with `sep` between neighbours: nothing for no
      parts, the part itself for one part, no leading or trailing `sep`. */
  function Join(parts: seq<string>, sep: string): (joined: string)
    ensures |parts| == 0 ==> joined == ""
    ensures |parts| == 1 ==> joined == parts[0]
    ensures |parts| > 0 ==> StartsWith(joined, parts[0])
  {
    if |parts| == 0 then ""
    else if |parts| == 1 then parts[0]
    else parts[0] + sep + Join(parts[1..], sep)
  }

  /** Cuts `s` at every occurrence of `sep`, scanning left to right; the
      empty string gives one empty field. */
  function Split(s: string, sep: string): (fields: seq<string>)
    requires |sep| > 0
    ensures |fields| > 0
    decreases |s|
  {
    if |s| == 0 then [""]
    else if StartsWith(s, sep) then [""] + Split(s[|sep|..], sep)
    else
      var rest := Split(s[1..], sep);
      [[s[0]] + rest[0]] + rest[1..]
  }

  /** Appending one part at the end adds exactly one separator and that part. */
  lemma {:induction false} JoinAppend(parts: seq<string>, last: string, sep: string)
    requires |parts| > 0
    ensures Join(parts + [last], sep) == Join(parts, sep) + sep + last
    decreases |parts|
  {
    var longer := parts + [last];
    if |parts| == 1 {
      assert longer[1..] == [last];
      assert Join(longer, sep) == parts[0] + sep + Join([last], sep);
    } else {
      assert longer[1..] == parts[1..] + [last];
      JoinAppend(parts[1..], last, sep);
      assert Join(longer, sep) == parts[0] + sep + (Join(parts[1..], sep) + sep + last);
      assert Join(parts, sep) == parts[0] + sep + Join(parts[1..], sep);
    }
  }

  /** A non-empty join ends with its last part: no trailing separator. */
  lemma JoinEndsWithLast(parts: seq<string>, sep: string)
    requires |parts| > 0
    ensures EndsWith(Join(parts, sep), parts[|parts| - 1])
  {
  }

  /** The same join built left to right with an accumulator, one separator
      before every part after the first. */
  method JoinLeftToRight(parts: seq<string>, sep: string) returns (joined: string)
    ensures joined == Join(parts, sep)
  {
    if |parts| == 0 {
      return "";
    }
    joined := parts[0];
    var i := 1;
    while i < |parts|
      invariant 1 <= i <= |parts|
      invariant joined == Join(parts[..i], sep)
    {
      JoinAppend(parts[..i], parts[i], sep);
      assert parts[..i + 1] == parts[..i] + [parts[i]];
      joined := joined + sep + parts[i];
      i := i + 1;
    }
    assert parts[..i] == parts;
  }

  /** No part and one empty part join to the same string, so a joined
      string only determines a non-empty list of parts. */
  lemma JoinEmptyIsAmbiguous(sep: string)
    ensures Join([], sep) == Join([""], sep) == ""
  {
  }

  /** A string that does not contain `sep` is a single field. */
  lemma {:induction false} SplitFree(s: string, sep: string)
    requires |sep| > 0 && FreeOf(s, sep)
    ensures Split(s, sep) == [s]
    decreases |s|
  {
    if |s| > 0 {
      assert s[0..] == s;
      assert !StartsWith(s, sep);
      FreeOfSuffix(s, sep);
      SplitFree(s[1..], sep);
      assert [s[0]] + s[1..] == s;
    }
  }

  /** Dropping the first character keeps a string free of `sep`. */
  lemma FreeOfSuffix(s: string, sep: string)
    requires |s| > 0 && FreeOf(s, sep)
    ensures FreeOf(s[1..], sep)
  {
  }

  /** A field free of an unbordered separator, followed by that separator,
      is cut off exactly at the separator. */
  lemma {:induction false} SplitAtSeparator(field: string, sep: string, rest: string)
    requires |sep| > 0 && Unbordered(sep) && FreeOf(field, sep)
    ensures Split(field + sep + rest, sep) == [field] + Split(rest, sep)
    decreases |field|
  {
    var s := field + sep + rest;
    if |field| == 0 {
      assert s == sep + rest;
      assert StartsWith(s, sep);
      assert s[|sep|..] == rest;
    } else {
      NotStartingAtSeparator(field, sep, rest);
      FreeOfSuffix(field, sep);
      SplitAtSeparator(field[1..], sep, rest);
      assert s[1..] == field[1..] + sep + rest;
      assert [s[0]] + field[1..] == field;
    }
  }

  /** The separator cannot start inside a non-empty field that is free of it. */
  lemma NotStartingAtSeparator(field: string, sep: string, rest: string)
    requires |sep| > 0 && Unbordered(sep) && FreeOf(field, sep) && |field| > 0
    ensures !StartsWith(field + sep + rest, sep)
  {
    var s := field + sep + rest;
    if |sep| <= |field| {
      assert field[0..] == field;
      assert !StartsWith(field[0..], sep);
      assert s[..|sep|] == field[..|sep|];
    } else {
      var k := |sep| - |field|;
      assert s[|field|..|field| + |sep|] == sep;
      assert s[..|sep|][|field|..] == sep[..k];
      assert sep[..k] != sep[|field|..];
    }
  }

  /** Splitting a joined list gives the list back, provided the list is
      non-empty, no part contains the separator and the separator cannot
      overlap itself. */
  lemma {:induction false} SplitJoin(parts: seq<string>, sep: string)
    requires |sep| > 0 && Unbordered(sep)
    requires |parts| > 0
    requires forall i :: 0 <= i < |parts| ==> FreeOf(parts[i], sep)
    ensures Split(Join(parts, sep), sep) == parts
    decreases |parts|
  {
    if |parts| == 1 {
      SplitFree(parts[0], sep);
    } else {
      SplitJoin(parts[1..], sep);
      SplitAtSeparator(parts[0], sep, Join(parts[1..], sep));
      assert [parts[0]] + parts[1..] == parts;
    }
  }
}
